=== FILE: README.md ===
# Fss Rasp core in Dafny

This project models the concurrency core of the Fss host-monitoring agent.
Detectors publish messages into a shared fabric of per-owner FIFO queues.
Monitors own detectors and drain their queues. Services form a pipeline: each
stage drains its clients' queues, processes the messages of its input kind,
and republishes under its own identity unless the journey ends there. Every
component shares one status engine (`Unknown`, `Initializing`, `Initialized`,
`Ok`, …), two phase guards, and a shutdown protocol that polls the workers at
most 30 times, 100 ms apart, and then aborts the stragglers.

Threads are not modelled. Each component is an immutable datatype, and
every operation is a pure function that returns the new state together with
what the C# method returned or threw (`Outcome`). A worker's loop is modelled
one iteration at a time (`ObserveClientQueueStep`, `ObserveDetectorQueueStep`).
Things the model cannot see become parameters:

- thread liveness: an oracle `alive(k)`, the k-th observation of `IsAlive` over the worker list (after n sleeps, the check after the wait loop is observation n + 1, and the check after the abort pass is observation n + 4);
- the process-wide cancellation flag;
- the detectors' `Enable` results;
- the stage's `ProcessClientQueueMessage`;
- the runtime type tests `is TClientMessage`, the cast to `TDetectorMessage`, and `Implements<IService>() || Implements<IMonitor>()`.

Modules, one per file:

| file | module | models |
|---|---|---|
| api.dfy | `Api` | `ApiStatus`, `ApiResult`, the exceptions raised, `Option`/`Outcome` |
| message_queue.dfy | `MessageQueues` | `MessageQueue`: registration, lookup, both `Enqueue` overloads, `Dequeue` |
| rasp_api.dfy | `RaspApi` | `RaspApi`: default status, guards, transition helpers, `EnqueueMessage` |
| shutdown.dfy | `ShutdownProtocol` | the `Shutdown` body that Service and Monitor share |
| service.dfy | `Services` | `Service`: constructor, `Start`, `Shutdown`, `AddClient(s)`, `IsLastInPipeline`, `ObserveClientQueue` |
| monitor.dfy | `Monitors` | `Monitor`: constructor, `Start`, `Shutdown`, `ObserveDetectorQueue` |
| image_artifact.dfy | `ImageArtifacts` | `ImageArtifact`: constructors, `Has…` queries, `AddDetectedObject` |
| scenarios.dfy | `Scenarios` | cross-component properties: a two-stage pipeline, and lifecycle |

Behaviour of the code that a reader might not expect, which the model reproduces:

- **Foreign messages at the last stage.** A message that is not of the stage's input kind is dropped when it reaches the last stage (Service.cs:167-172). It is not passed through.
- **The Monitor observer.** It never hands a message to `ProcessDetectorQueueMessage` (Monitor.cs:117-121). On any exception other than cancellation it logs "Resuming" and then returns, so it does not loop again (Monitor.cs:132-135).
- **`Shutdown` and the status.** `Shutdown` leaves `Status` as it was. It sets the two shutdown flags, and fires the process-wide cancellation if that has not fired yet (Service.cs:74-77, Monitor.cs:76-79). `Shutdown` is therefore not a terminal state.
- **Service `Start`.** It reports `Success` whatever its clients are, including when it has none. Monitor `Start` reports `Failure` unless some detector enabled.
- **Helper names.** The source spells two helpers `…ReturnSucces`. The model names them `SetInitializedStatusAndReturnSuccess` and `SetOkStatusAndReturnSuccess`.

## Model

| member | source | states |
|---|---|---|
| MessageQueues.New | src/Base/Rasp/Api/MessageQueue.cs:14-23 | one queue per given object, registered at its position, all empty, so the fabric holds no message |
| MessageQueues.IndexOfValue | src/Base/Rasp/Api/MessageQueue.cs:32-41 | the lookup gives the first position registered under the identity, or -1 exactly when none is |
| MessageQueues.Blocks | src/Base/Rasp/Api/MessageQueue.cs:34-41 | a `Take` blocks exactly when the owner is registered and its queue is empty; a registered owner whose queue holds a message never blocks |
| MessageQueues.NewIndexesByPosition | src/Base/Rasp/Api/MessageQueue.cs:14-23 | on a fresh fabric with distinct owners, each object finds its own position, and a take from it would block |
| MessageQueues.ShadowedQueueUnreachable | src/Base/Rasp/Api/MessageQueue.cs:32-41 | a queue registered under an identity that an earlier queue already has is never selected, read or written |
| MessageQueues.Enqueue | src/Base/Rasp/Api/MessageQueue.cs:32 | throws iff the owner is unregistered; otherwise reports added, appends the message to that owner's queue only, and grows the fabric by exactly that message |
| MessageQueues.EnqueueType | src/Base/Rasp/Api/MessageQueue.cs:36-39 | the `Type` overload: the same lookup and the same error, and an append to that queue only |
| MessageQueues.EnqueueOverloadsAgree | src/Base/Rasp/Api/MessageQueue.cs:32-39 | both overloads throw on the same inputs and leave the same fabric |
| MessageQueues.Dequeue | src/Base/Rasp/Api/MessageQueue.cs:34-41 | throws iff the owner is unregistered; otherwise returns the head of that owner's queue, and the fabric loses exactly that message and nothing else |
| MessageQueues.EnqueueDequeueRoundTrip | src/Base/Rasp/Api/MessageQueue.cs:32-41 | enqueuing onto an empty queue and taking again gives back the message and the original fabric |
| MessageQueues.EnqueueAll | src/Base/Rasp/Api/MessageQueue.cs:32 | publishing a sequence appends it, in order, to the owner's queue and changes no other queue |
| MessageQueues.Drain | src/Base/Rasp/Api/MessageQueue.cs:41 | taking n messages returns the queue's first n in order and leaves the rest |
| MessageQueues.FifoRoundTrip | src/Base/Rasp/Api/MessageQueue.cs:32-41 | per-owner FIFO with no loss or duplication: what is published comes back in publication order, and the fabric ends as it began |
| MessageQueues.AllMessagesGrow | src/Base/Rasp/Api/MessageQueue.cs:28 | growing one queue by a multiset grows the fabric's contents by exactly that multiset |
| MessageQueues.QueueInAllMessages | src/Base/Rasp/Api/MessageQueue.cs:28 | every queue's messages are among the fabric's messages |
| MessageQueues.SameOwnersSameIndex | src/Base/Rasp/Api/MessageQueue.cs:27 | lookup and registration depend only on the registered owners, not on queue contents |
| RaspApi.ThrowIfNotOk | src/Base/Rasp/Api/RaspApi.cs:133-136 | throws iff the status is not `Ok`; when it passes, the status is unchanged |
| RaspApi.ThrowIfNotInitializing | src/Base/Rasp/Api/RaspApi.cs:123-126 | throws iff the status is not `Initializing`; when it passes, the status is unchanged |
| RaspApi.GuardsExclusive | src/Base/Rasp/Api/RaspApi.cs:123-136 | no status passes both guards |
| RaspApi.InitialStatusPassesNoGuard | src/Base/Rasp/Api/RaspApi.cs:74 | a component still at the default `Unknown` status fails both the `Ok` and the `Initializing` guard |
| RaspApi.SetStatusAndReturnSuccess | src/Base/Rasp/Api/RaspApi.cs:139-143 | the status becomes the argument, and the result is `Success` |
| RaspApi.SetStatusAndReturnFailure | src/Base/Rasp/Api/RaspApi.cs:161-165 | the status becomes the argument, and the result is `Failure` |
| RaspApi.SetInitializedStatusAndReturnSuccess | src/Base/Rasp/Api/RaspApi.cs:146-151 | the generic success helper applied to `Initialized`; the `Ok` guard still rejects the component afterwards |
| RaspApi.SetOkStatusAndReturnSuccess | src/Base/Rasp/Api/RaspApi.cs:154-158 | the generic success helper applied to `Ok`; afterwards the `Ok` guard passes |
| RaspApi.SetErrorStatusAndReturnFailure | src/Base/Rasp/Api/RaspApi.cs:168-176 | the generic failure helper applied to `Error`; afterwards the `Ok` guard throws |
| RaspApi.ErrorTransitionIgnoresMessage | src/Base/Rasp/Api/RaspApi.cs:168-176 | the error message is only logged: the transition is the same whatever the message |
| RaspApi.EnqueueMessage | src/Base/Rasp/Api/RaspApi.cs:129 | publishes onto the component's own queue: throws iff the component is unregistered; otherwise appends at the tail of that queue only, and the fabric gains exactly the message |
| ShutdownProtocol.WaitPolls | src/Base/Rasp/Service/Service.cs:78-83 | the wait loop sleeps at most 30 times, every poll before the last saw a live worker, and stopping early means no worker was alive |
| ShutdownProtocol.Run | src/Base/Rasp/Service/Service.cs:70-109 | throws iff the status is not `Ok`; sets requested, fires cancellation iff not already fired, waits at most 3000 ms, aborts iff a worker survived the wait, succeeds iff the workers were all dead after the wait or after the abort, and marks completed on success |
| ShutdownProtocol.IdleWorkersStopAtOnce | src/Base/Rasp/Service/Service.cs:78-89 | with every worker already stopped, shutdown succeeds with no sleep and no abort, and is marked completed |
| ShutdownProtocol.StubbornWorkerFailsShutdown | src/Base/Rasp/Service/Service.cs:78-107 | a worker that never stops uses all 30 polls, is aborted, and shutdown fails with completed unchanged |
| Services.New | src/Base/Rasp/Service/Service.cs:17-22 | throws iff the profile is null; otherwise the clients are the given objects in order and the status is `Initializing`, so the constructor guard passes |
| Services.Start | src/Base/Rasp/Service/Service.cs:56-68 | one worker per client in client order, then status `Ok` and result `Success` |
| Services.Shutdown | src/Base/Rasp/Service/Service.cs:70-109 | the shared protocol over the service's workers, the oracle giving one flag per worker: throws iff the status is not `Ok`; only the flags change; cancellation is fired iff it had not been; the wait sleeps exactly as often as the wait loop polls, at most 30 times; it aborts iff a worker survived the wait; the result is `Success` iff no worker survived the wait or the abort, and `Failure` otherwise, and completed is set on success |
| Services.ShutdownWithoutWorkers | src/Base/Rasp/Service/Service.cs:78-89 | with no worker, `Any` is false and `All` is true: shutdown succeeds with no sleep and no abort, and is marked completed |
| Services.AddClient | src/Base/Rasp/Service/Service.cs:111-125 | throws iff the type is neither service nor monitor (checked first); a client already present leaves the list unchanged; a new one is appended at the end |
| Services.AddClientIdempotent | src/Base/Rasp/Service/Service.cs:117-120 | adding an accepted client twice is the same as adding it once |
| Services.AddClientKeepsDistinct | src/Base/Rasp/Service/Service.cs:117-124 | a list without duplicates stays without duplicates |
| Services.FirstRejected | src/Base/Rasp/Service/Service.cs:129-132 | the position of the first rejected type: every type before it is accepted |
| Services.NewClients | src/Base/Rasp/Service/Service.cs:117-124 | reference for what a left-to-right scan appends: each type not yet seen, once, in order; only such types, and all of them |
| Services.AddClients | src/Base/Rasp/Service/Service.cs:127-133 | throws iff some type is rejected; the types before the first rejected one are all present afterwards, nothing else is added, the old list is a prefix, and distinctness is kept |
| Services.AddClientsAppendsNewClients | src/Base/Rasp/Service/Service.cs:127-133 | the result is the old list followed by the new types before the first rejected one, in their order, each once |
| Services.AddClientsOfPresent | src/Base/Rasp/Service/Service.cs:127-133 | adding types that are all already present leaves the list unchanged |
| Services.AddClientsPrefixPresent | src/Base/Rasp/Service/Service.cs:127-133 | when the accepted prefix is already present, the list is unchanged |
| Services.AddClientsIdempotent | src/Base/Rasp/Service/Service.cs:127-133 | repeating `AddClients` with the same types adds nothing and throws the same way |
| Services.IsLastInPipeline | src/Base/Rasp/Service/Service.cs:52 | the stage is last iff the stages are the earlier ones followed by this stage; a last stage is one of the stages |
| Services.ExactlyOneLastStage | src/Base/Rasp/Service/Service.cs:52 | in a pipeline of distinct stages, a stage is last iff it is the final one |
| Services.RouteMessage | src/Base/Rasp/Service/Service.cs:144-177 | a message's journey ends iff the stage is last and the message was foreign or processed with `Success`; every other case forwards |
| Services.NeverDroppedUnlessSuccess | src/Base/Rasp/Service/Service.cs:148-157 | a processing result other than `Success` always forwards, whether or not the stage is last |
| Services.ObserveClientQueueStep | src/Base/Rasp/Service/Service.cs:135-205 | the loop stops iff shutdown was requested or cancellation fired, and then the status becomes `Ok`; an unregistered client faults with the fabric unchanged; otherwise the head of the client's queue is taken and routed. Forwarding takes it off the client's queue, appends it to the stage's own queue and changes no other queue; ending the journey leaves exactly what the take left; a stage whose own identity is unregistered faults holding the taken message, and only when the message is to be forwarded |
| Monitors.New | src/Base/Rasp/Monitor/Monitor.cs:19-22 | the status stays at the default `Unknown`, so the `Ok` guard throws; no detectors and no observers |
| Monitors.CountEnabled | src/Base/Rasp/Monitor/Monitor.cs:48-59 | the count is the number of `Success` results; it is zero iff no detector enabled |
| Monitors.Start | src/Base/Rasp/Monitor/Monitor.cs:43-70 | throws iff observer threads from an earlier start exist (they cannot be started twice); otherwise one observer per detector, and `Success` with `Ok` iff some detector enabled, else `Failure` with `Error` |
| Monitors.RestartThrows | src/Base/Rasp/Monitor/Monitor.cs:46-47 | a monitor with detectors that started once throws on a second `Start`, even back at `Initialized` |
| Monitors.Shutdown | src/Base/Rasp/Monitor/Monitor.cs:72-111 | the shared protocol over the observer threads, the oracle giving one flag per observer: throws iff the status is not `Ok`; only the flags change; cancellation is fired iff it had not been; the wait sleeps exactly as often as the wait loop polls, at most 30 times; it aborts iff an observer survived the wait; the result is `Success` iff no observer survived the wait or the abort, and `Failure` otherwise, and completed is set on success |
| Monitors.ShutdownWithoutObservers | src/Base/Rasp/Monitor/Monitor.cs:80-91 | with no observer thread, shutdown succeeds at once with no sleep and no abort, and is marked completed |
| Monitors.ObserveDetectorQueueStep | src/Base/Rasp/Monitor/Monitor.cs:113-136 | the loop stops iff shutdown was requested or cancellation fired, and then the status becomes `Ok`; otherwise the head of the detector's queue is taken off, every owner and every other queue unchanged, and discarded. An unregistered detector (fabric unchanged) or a failed cast crashes the observer |
| ImageArtifacts.FromBitmap | src/Base/Rasp/RaspArtifacts/ImageArtifact.cs:15-27 | keeps the bitmap and stores the copied buffer as its data, so it has data iff that buffer is non-empty; no file, no text, no detected objects |
| ImageArtifacts.FromFile | src/Base/Rasp/RaspArtifacts/ImageArtifact.cs:29-37 | the file becomes both file and source; name, process and window title are copied from it |
| ImageArtifacts.HasData | src/Base/Rasp/RaspArtifacts/ImageArtifact.cs:49 | true iff there is a buffer and it is not empty |
| ImageArtifacts.HasBitmap | src/Base/Rasp/RaspArtifacts/ImageArtifact.cs:51 | true iff the bitmap reference is set |
| ImageArtifacts.HasFile | src/Base/Rasp/RaspArtifacts/ImageArtifact.cs:53 | true iff the file artifact reference is set |
| ImageArtifacts.HasOCRText | src/Base/Rasp/RaspArtifacts/ImageArtifact.cs:70 | true iff the recognised-text list is set, even when empty |
| ImageArtifacts.HasDetectedObjects | src/Base/Rasp/RaspArtifacts/ImageArtifact.cs:79-80 | true iff some rectangle is recorded under the kind |
| ImageArtifacts.AddDetectedObject | src/Base/Rasp/RaspArtifacts/ImageArtifact.cs:82-92 | as written: throws iff the kind is new and `FaceCandidate` is already a key; a new kind's list is stored under `FaceCandidate`; a known kind gets the rectangle appended |
| ImageArtifacts.AddToKnownKind | src/Base/Rasp/RaspArtifacts/ImageArtifact.cs:88-91 | for a recorded kind, the rectangle goes at the end of that kind's list and every other kind is unchanged |
| ImageArtifacts.AddDetectedObjectMisfiles | src/Base/Rasp/RaspArtifacts/ImageArtifact.cs:84-87 | the first object of a kind other than `FaceCandidate` leaves that kind reported absent |
| ImageArtifacts.MisfiledOnFreshArtifact | src/Base/Rasp/RaspArtifacts/ImageArtifact.cs:84-87 | concrete instance: on a fresh artifact, one object of another kind is reported as a face candidate |
| ImageArtifacts.SecondNewKindThrows | src/Base/Rasp/RaspArtifacts/ImageArtifact.cs:84-87 | after that, a second new kind throws a duplicate-key error |
| ImageArtifacts.AddDetectedObjectIntended | src/Base/Rasp/RaspArtifacts/ImageArtifact.cs:82-92 | corrected: the keys afterwards are the old keys plus the given kind, and nothing else changes |
| ImageArtifacts.IntendedAddRecordsKind | src/Base/Rasp/RaspArtifacts/ImageArtifact.cs:79-92 | corrected: the kind is reported present, its list is the old list plus the rectangle, and other kinds are untouched |
| ImageArtifacts.AsWrittenAgreesWhenKindKnown | src/Base/Rasp/RaspArtifacts/ImageArtifact.cs:82-92 | for a known kind, or for `FaceCandidate`, the code as written agrees with the corrected version |
| Scenarios.TwoStagePipelineSuccess | src/Base/Rasp/Service/Service.cs:144-165 | stage A (not last) forwards a successful message to its own queue; stage B (last) takes it from there and ends its journey; afterwards no queue holds any message |
| Scenarios.TwoStagePipelineFailureStillForwards | src/Base/Rasp/Service/Service.cs:153-157 | a failed message is still forwarded to the tail of the stage's own queue, and the fabric is conserved |
| Scenarios.ServiceStartEnablesShutdown | src/Base/Rasp/Service/Service.cs:56-72 | a started service passes the `Ok` guard of `Shutdown` |
| Scenarios.FailedMonitorCannotShutDown | src/Base/Rasp/Monitor/Monitor.cs:60-74 | a first `Start` in which no detector enabled leaves the monitor in `Error`, and its `Shutdown` throws |
| Scenarios.OneOfTwoDetectorsSuffices | src/Base/Rasp/Monitor/Monitor.cs:48-64 | one enabled detector out of two is enough for `Ok` and `Success` |
| Scenarios.StartAsymmetry | src/Base/Rasp/Service/Service.cs:56-68 | with nothing to watch, a service starts with `Success` while a monitor reports `Failure` |

## Left out

- Threads, sleeping, and `Thread.Abort`. Liveness is the oracle `alive`, and a worker loop is modelled one iteration at a time.
- A message that is taken while a blocking `Take` is cancelled, and a `Take` on an empty queue. `Dequeue` requires that the owner's queue is not empty, or that the owner is unregistered. The cancellation exception is covered only by the loop's stop condition.
- `Services.ObserveClientQueueStep`: the self-call after a caught exception is modelled as the `Faulted` step. Its unbounded stack growth is not modelled. Exceptions thrown from inside `ProcessClientQueueMessage` are not modelled, because `process` is total.
- `ThrowIfNotInitialized` is not part of this model: its base class is not included. `Start` requires `Initialized` instead.
- `Init`, `ProcessClientQueueMessage`, `ProcessDetectorQueueMessage` and detector `Enable` are abstract or external. They become parameters or are not called.
- `Pipeline` is not part of this model. `IsLastInPipeline` takes the stages in insertion order and requires at least one stage. A stage without a pipeline would throw a null reference, and that is not modelled.
- Services.Shutdown: `Threads` is null before `Start`, so the source throws a null reference on `Shutdown` of a service that reached `Ok` without `Start`. In the model the worker list is then empty, and shutdown succeeds at once.
- Registering detectors with the fabric happens outside these files. So does the process-wide `Global.MessageQueue`, which is passed explicitly.
- Logging (`Info`, `Debug`, `Error`), `Description`/`Name` reflection, `SetPropFromDict`, and the static directory properties are not modelled. They have no effect on the state modelled here.
- `ShutdownProtocol.Run`: the `IsAlive` readings in the `Count` argument of the abort log message and in the `Where` filter that picks the threads to abort (Service.cs:92-94, Monitor.cs:94-96) are observations n + 2 and n + 3 of the oracle, but nothing modelled depends on them: the log is not modelled, and what `Abort` achieves is only visible through observation n + 4.
- `ImageArtifacts.FromBitmap`: `LockBits` and `Marshal.Copy` are not modelled. The copied buffer is the parameter `pixels`.
- `AdultContentScore` and `RacyContentScore` are not modelled: they are floating-point.
- The `Artifact` base class and the `ImageObjectKinds` enum are not part of this model. Kinds other than `FaceCandidate` are represented by an ordinal.
- `ImageArtifact` mutation in place is modelled as returning an updated value.
- `Dequeue<T>` is modelled by `Dequeue`: its type argument is unused.
- The enums' numeric values are not modelled: nothing in the modelled code reads them, so each enum is a datatype with one constructor per member.
- Monitors.Start: when it throws, the observers appended before the throw and the threads already running are not returned; the model keeps only the exception.

## Findings

| source | as written | input that shows it | evidently intended | confidence | as-written member | corrected member |
|---|---|---|---|---|---|---|
| src/Base/Rasp/RaspArtifacts/ImageArtifact.cs:84-87 | the first rectangle of a kind not yet in `DetectedObjects` is added under `FaceCandidate`, not under that kind | a fresh artifact and `AddDetectedObject(kind other than FaceCandidate, r)`: the kind is still reported absent, and a second new kind then throws a duplicate-key error | add the new list under the given kind | high (not executed) | ImageArtifacts.AddDetectedObject | ImageArtifacts.AddDetectedObjectIntended |

=== FILE: api.dfy ===
/**
  The vocabulary every component shares: the lifecycle status, the result of a
  processing step, the exceptions the core raises, and the two wrappers the
  model uses for partial results (`Option` for a possibly-null reference,
  `Outcome` for "returned a value or threw").
 */
module Api {

  /** Lifecycle state of a component, one constructor per declared enum member. */
  datatype ApiStatus =
    | Unknown
    | Ok
    | Error
    | RemoteApiClientError
    | Initializing
    | Initialized
    | FileNotFound
    | ProcessNotFound
    | LibraryError
    | ConfigurationError

  /** Outcome of processing one message. */
  datatype ApiResult = Unknown | Success | Failure | NoOp

  /** The exceptions the modelled code raises. */
  datatype Exception =
    | NotOk               // a status guard found the component out of phase
    | NotInitializing     // the constructor guard found the component out of phase
    | IndexOutOfRange     // a queue lookup found no owner and indexed with -1
    | NotServiceOrMonitor // a client type lacks the service or monitor capability
    | DuplicateKey        // a dictionary insertion met an existing key
    | ArgumentNull        // a required constructor argument was null
    | InvalidCast         // a dequeued message was not of the expected message type
    | ThreadState         // a thread that was already started was started again

  /** A reference that may be null. */
  datatype Option<+T> = None | Some(value: T)

  /** A call that either returned a value or threw. */
  datatype Outcome<+T> = Returned(value: T) | Threw(error: Exception)

  /** What `Start` leaves behind: the component and the result it returned. */
  datatype Started<+T> = Started(component: T, result: ApiResult)
}

=== FILE: image_artifact.dfy ===
/**
  An image artifact: the captured bitmap and its bytes, the file it came from,
  and what later stages attach to it (detected objects by kind, categories,
  recognised text). Pixel copying, the bitmap itself and the floating-point
  content scores are not modelled.
 */
module ImageArtifacts {
  import opened Api

  /** An axis-aligned rectangle in image coordinates. */
  datatype Rectangle = Rectangle(x: int, y: int, width: int, height: int)

  /**
    The kind of object a stage detected. Only `FaceCandidate` matters to the
    modelled code; the enum's other members are represented by their ordinal.
   */
  datatype ImageObjectKind = FaceCandidate | OtherKind(ordinal: nat)

  /** A captured bitmap, reduced to its dimensions. */
  datatype Bitmap = Bitmap(width: nat, height: nat)

  /** The file artifact an image was read from, reduced to the fields copied from it. */
  datatype FileArtifact = FileArtifact(name: string, currentProcess: string, currentWindowTitle: string)

  /** A category assigned by an analysis stage. */
  datatype ArtifactCategory = ArtifactCategory(name: string)

  datatype ImageArtifact = ImageArtifact(
    name: string,
    source: Option<FileArtifact>,
    currentProcess: string,
    currentWindowTitle: string,
    data: Option<seq<bv8>>,
    image: Option<Bitmap>,
    fileArtifact: Option<FileArtifact>,
    detectedObjects: map<ImageObjectKind, seq<Rectangle>>,
    categories: seq<ArtifactCategory>,
    isAdultContent: bool,
    isRacy: bool,
    ocrText: Option<seq<string>>,
    captions: Option<seq<string>>,
    tags: Option<seq<string>>)

  /** There is a buffer and it holds at least one byte. */
  function HasData(a: ImageArtifact): (h: bool)
    ensures h <==> a.data != None && a.data != Some([])
  {
    a.data.Some? && |a.data.value| != 0
  }

  /** The bitmap reference is set. */
  function HasBitmap(a: ImageArtifact): (h: bool)
    ensures h <==> a.image != None
  {
    a.image.Some?
  }

  /** The file artifact reference is set. */
  function HasFile(a: ImageArtifact): (h: bool)
    ensures h <==> a.fileArtifact != None
  {
    a.fileArtifact.Some?
  }

  /** The recognised-text list is set, possibly empty. */
  function HasOCRText(a: ImageArtifact): (h: bool)
    ensures h <==> a.ocrText != None
  {
    a.ocrText.Some?
  }

  /** Some rectangle is recorded under kind `k`. */
  function HasDetectedObjects(a: ImageArtifact, k: ImageObjectKind): (h: bool)
    ensures h <==> exists rect :: k in a.detectedObjects && rect in a.detectedObjects[k]
  {
    var present := k in a.detectedObjects && |a.detectedObjects[k]| > 0;
    assert present ==> a.detectedObjects[k][0] in a.detectedObjects[k];
    present
  }

  /**
    The bitmap constructor: keeps the bitmap and the bytes copied out of it.
    The copy is not modelled: `pixels` stands for the buffer it produces.
   */
  function FromBitmap(image: Bitmap, pixels: seq<bv8>): (a: ImageArtifact)
    ensures HasBitmap(a) && a.image == Some(image)
    ensures a.data == Some(pixels)
    ensures HasData(a) <==> |pixels| > 0
    ensures !HasFile(a) && !HasOCRText(a)
    ensures forall k :: !HasDetectedObjects(a, k)
    ensures a.detectedObjects == map[] && a.categories == []
  {
    ImageArtifact("", None, "", "", Some(pixels), Some(image), None, map[], [], false, false, None, None, None)
  }

  /**
    The constructor from a bitmap and the file artifact it was read from: the
    file becomes both the artifact's file and its source, and its name,
    process and window title are copied.
   */
  function FromFile(image: Bitmap, pixels: seq<bv8>, file: FileArtifact): (a: ImageArtifact)
    ensures HasFile(a) && a.fileArtifact == Some(file) && a.source == Some(file)
    ensures a.name == file.name
    ensures a.currentProcess == file.currentProcess && a.currentWindowTitle == file.currentWindowTitle
    ensures a.image == Some(image) && a.data == Some(pixels)
    ensures a.detectedObjects == map[] && a.categories == []
  {
    FromBitmap(image, pixels).(
      fileArtifact := Some(file),
      name := file.name,
      source := Some(file),
      currentProcess := file.currentProcess,
      currentWindowTitle := file.currentWindowTitle)
  }

  /**
    `AddDetectedObject` as written: a known kind gets `r` appended; for an
    unknown kind the singleton list is inserted under `FaceCandidate`, whatever
    the kind, and that insertion throws when `FaceCandidate` is already a key.
   */
  function AddDetectedObject(a: ImageArtifact, k: ImageObjectKind, r: Rectangle): (o: Outcome<ImageArtifact>)
    ensures o.Threw? <==> k !in a.detectedObjects && FaceCandidate in a.detectedObjects
    ensures o.Threw? ==> o.error == DuplicateKey
    ensures o.Returned? ==> o.value == a.(detectedObjects := o.value.detectedObjects)
    ensures o.Returned? && k in a.detectedObjects ==>
              o.value.detectedObjects == a.detectedObjects[k := a.detectedObjects[k] + [r]]
    ensures o.Returned? && k !in a.detectedObjects ==>
              o.value.detectedObjects == a.detectedObjects[FaceCandidate := [r]]
  {
    if k !in a.detectedObjects then
      if FaceCandidate in a.detectedObjects then Threw(DuplicateKey)
      else Returned(a.(detectedObjects := a.detectedObjects[FaceCandidate := [r]]))
    else
      Returned(a.(detectedObjects := a.detectedObjects[k := a.detectedObjects[k] + [r]]))
  }

  /**
    Adding an object of a kind that is already recorded appends it at the end
    of that kind's list; every other kind keeps its list.
   */
  lemma AddToKnownKind(a: ImageArtifact, k: ImageObjectKind, r: Rectangle)
    requires k in a.detectedObjects
    ensures AddDetectedObject(a, k, r).Returned?
    ensures var b := AddDetectedObject(a, k, r).value;
            && HasDetectedObjects(b, k)
            && b.detectedObjects[k] == a.detectedObjects[k] + [r]
            && b.detectedObjects.Keys == a.detectedObjects.Keys
            && forall j :: j in a.detectedObjects && j != k ==> b.detectedObjects[j] == a.detectedObjects[j]
  {
  }

  /**
    The discrepancy: the first object of any kind other than `FaceCandidate`
    is filed as a face candidate, so the kind is still reported absent.
   */
  lemma AddDetectedObjectMisfiles(a: ImageArtifact, k: ImageObjectKind, r: Rectangle)
    requires k != FaceCandidate && k !in a.detectedObjects && FaceCandidate !in a.detectedObjects
    ensures AddDetectedObject(a, k, r).Returned?
    ensures !HasDetectedObjects(AddDetectedObject(a, k, r).value, k)
    ensures AddDetectedObject(a, k, r).value.detectedObjects[FaceCandidate] == [r]
  {
  }

  /** A concrete instance: a fresh artifact and one object of a kind other than `FaceCandidate`. */
  lemma MisfiledOnFreshArtifact(image: Bitmap, pixels: seq<bv8>, r: Rectangle)
    ensures var a := AddDetectedObject(FromBitmap(image, pixels), OtherKind(1), r);
            a.Returned? && !HasDetectedObjects(a.value, OtherKind(1)) && HasDetectedObjects(a.value, FaceCandidate)
  {
  }

  /** A second new kind after that first misfiling throws. */
  lemma SecondNewKindThrows(image: Bitmap, pixels: seq<bv8>, r: Rectangle, s: Rectangle)
    ensures var a := AddDetectedObject(FromBitmap(image, pixels), OtherKind(1), r).value;
            AddDetectedObject(a, OtherKind(2), s) == Threw(DuplicateKey)
  {
  }

  /** `AddDetectedObject` as evidently intended: the new list goes under the given kind. */
  function AddDetectedObjectIntended(a: ImageArtifact, k: ImageObjectKind, r: Rectangle): (b: ImageArtifact)
    ensures b == a.(detectedObjects := b.detectedObjects)
    ensures b.detectedObjects.Keys == a.detectedObjects.Keys + {k}
  {
    if k !in a.detectedObjects then a.(detectedObjects := a.detectedObjects[k := [r]])
    else a.(detectedObjects := a.detectedObjects[k := a.detectedObjects[k] + [r]])
  }

  /**
    The intended behaviour: after adding, the kind is reported present, its
    list ends with the new rectangle after everything recorded before, and
    every other kind is untouched. It never throws.
   */
  lemma IntendedAddRecordsKind(a: ImageArtifact, k: ImageObjectKind, r: Rectangle)
    ensures var b := AddDetectedObjectIntended(a, k, r);
            && HasDetectedObjects(b, k)
            && b.detectedObjects[k] == (if k in a.detectedObjects then a.detectedObjects[k] else []) + [r]
            && forall j :: j in a.detectedObjects && j != k ==> b.detectedObjects[j] == a.detectedObjects[j]
  {
  }

  /** Where the as-written version does not throw or misfile, it agrees with the intended one. */
  lemma AsWrittenAgreesWhenKindKnown(a: ImageArtifact, k: ImageObjectKind, r: Rectangle)
    requires k in a.detectedObjects || k == FaceCandidate
    requires AddDetectedObject(a, k, r).Returned?
    ensures AddDetectedObject(a, k, r).value == AddDetectedObjectIntended(a, k, r)
  {
  }
}

=== FILE: message_queue.dfy ===
/**
  The message-queue fabric: an array of FIFO queues, each registered under an
  owner identity. Lookup scans the owners in registration order and takes the
  first one equal to the requested identity; an owner that is not registered
  yields index -1, and indexing the array with it throws.

  Blocking `Take` is modelled by requiring that the looked-up queue holds a
  message; cancellation of a blocked `Take` is not part of this module.
 */
module MessageQueues {
  import opened Api

  /** One registered queue and the identity it is registered under. */
  datatype Entry<O, M> = Entry(owner: O, queue: seq<M>)

  /** All queues, in registration order. */
  type Registry<O, M> = seq<Entry<O, M>>

  /** Some queue is registered under `o`. */
  predicate Registered<O(==), M>(r: Registry<O, M>, o: O)
  {
    exists i :: 0 <= i < |r| && r[i].owner == o
  }

  /** `r` and `r'` register the same owners at the same positions. */
  ghost predicate SameOwners<O, M>(r: Registry<O, M>, r': Registry<O, M>)
  {
    |r| == |r'| && forall j :: 0 <= j < |r| ==> r'[j].owner == r[j].owner
  }

  /** `r'` differs from `r` at most in the queue at position `i`. */
  ghost predicate OthersUnchanged<O, M>(r: Registry<O, M>, r': Registry<O, M>, i: int)
  {
    |r| == |r'| && forall j :: 0 <= j < |r| && j != i ==> r'[j] == r[j]
  }

  /** Every message held by any queue, with multiplicity. */
  function AllMessages<O, M>(r: Registry<O, M>): multiset<M>
  {
    if |r| == 0 then multiset{} else multiset(r[0].queue) + AllMessages(r[1..])
  }

  /** Growing one queue by `d` grows the fabric's contents by exactly `d`. */
  lemma {:induction false} AllMessagesGrow<O, M>(r: Registry<O, M>, i: int, e: Entry<O, M>, d: multiset<M>)
    requires 0 <= i < |r|
    requires multiset(e.queue) == multiset(r[i].queue) + d
    ensures AllMessages(r[i := e]) == AllMessages(r) + d
    decreases |r|
  {
    if i == 0 {
      assert r[i := e][1..] == r[1..];
    } else {
      assert r[i := e][0] == r[0];
      assert r[i := e][1..] == r[1..][i - 1 := e];
      AllMessagesGrow(r[1..], i - 1, e, d);
    }
  }

  /** Every message of one queue is a message of the fabric. */
  lemma {:induction false} QueueInAllMessages<O, M>(r: Registry<O, M>, i: int)
    requires 0 <= i < |r|
    ensures multiset(r[i].queue) <= AllMessages(r)
    decreases |r|
  {
    if i > 0 {
      assert r[1..][i - 1] == r[i];
      QueueInAllMessages(r[1..], i - 1);
    }
  }

  /** The constructor: one empty queue per given owner, position `i` registered under `objs[i]`. */
  function New<O, M>(objs: seq<O>): (r: Registry<O, M>)
    ensures |r| == |objs|
    ensures forall i :: 0 <= i < |r| ==> r[i].owner == objs[i] && r[i].queue == []
    ensures AllMessages(r) == multiset{}
  {
    if |objs| == 0 then [] else [Entry(objs[0], [])] + New(objs[1..])
  }

  /**
    Position of the first queue registered under `o`, or -1 when there is none
    (the sorted list's `IndexOfValue`; its keys are the positions themselves).
   */
  function IndexOfValue<O(==), M>(r: Registry<O, M>, o: O): (i: int)
    ensures -1 <= i < |r|
    ensures i == -1 <==> !Registered(r, o)
    ensures 0 <= i ==> r[i].owner == o && forall j :: 0 <= j < i ==> r[j].owner != o
    decreases |r|
  {
    if |r| == 0 then -1
    else if r[0].owner == o then 0
    else
      var k := IndexOfValue(r[1..], o);
      if k == -1 then
        assert forall j :: 1 <= j < |r| ==> r[j].owner == r[1..][j - 1].owner;
        -1
      else k + 1
  }

  /** Lookup depends only on the owners, not on what the queues hold. */
  lemma SameOwnersSameIndex<O, M>(r: Registry<O, M>, r': Registry<O, M>, o: O)
    requires SameOwners(r, r')
    ensures IndexOfValue(r', o) == IndexOfValue(r, o)
    ensures Registered(r', o) <==> Registered(r, o)
  {
  }

  /** A take would block: the owner is registered but its first queue is empty. */
  function Blocks<O(==), M>(r: Registry<O, M>, o: O): (b: bool)
    ensures b <==> Registered(r, o) && r[IndexOfValue(r, o)].queue == []
    ensures Registered(r, o) && |r[IndexOfValue(r, o)].queue| > 0 ==> !b
  {
    var i := IndexOfValue(r, o);
    0 <= i && r[i].queue == []
  }

  /** Appends `m` to the queue at position `i`. */
  function Push<O, M>(r: Registry<O, M>, i: int, m: M): (r': Registry<O, M>)
    requires 0 <= i < |r|
    ensures SameOwners(r, r') && OthersUnchanged(r, r', i)
    ensures r'[i].queue == r[i].queue + [m]
    ensures AllMessages(r') == AllMessages(r) + multiset{m}
  {
    var e := Entry(r[i].owner, r[i].queue + [m]);
    assert multiset(e.queue) == multiset(r[i].queue) + multiset{m};
    AllMessagesGrow(r, i, e, multiset{m});
    r[i := e]
  }

  /**
    `r'` is `r` with the head of the first queue registered under `o` taken
    off, every other queue and every owner as before.
   */
  ghost predicate HeadRemoved<O, M>(r: Registry<O, M>, o: O, r': Registry<O, M>)
  {
    var i := IndexOfValue(r, o);
    && 0 <= i && |r[i].queue| > 0
    && SameOwners(r, r') && OthersUnchanged(r, r', i)
    && r'[i].queue == r[i].queue[1..]
  }

  /** The state after a `TryAdd`: whether it added, and the fabric it leaves. */
  datatype Published<O, M> = Published(added: bool, registry: Registry<O, M>)

  /**
    The object overload of `Enqueue`: `TryAdd` on the first queue registered
    under `o`. The queues are unbounded and never closed, so `TryAdd` adds.
   */
  function Enqueue<O(==), M>(r: Registry<O, M>, o: O, m: M): (res: Outcome<Published<O, M>>)
    ensures res.Threw? <==> !Registered(r, o)
    ensures res.Threw? ==> res.error == IndexOutOfRange
    ensures res.Returned? ==>
              var i, r' := IndexOfValue(r, o), res.value.registry;
              && res.value.added
              && SameOwners(r, r') && OthersUnchanged(r, r', i)
              && r'[i].queue == r[i].queue + [m]
              && AllMessages(r') == AllMessages(r) + multiset{m}
  {
    var i := IndexOfValue(r, o);
    if i < 0 then Threw(IndexOutOfRange) else Returned(Published(true, Push(r, i, m)))
  }

  /** The `Type` overload of `Enqueue`: the same lookup, then `Add`. */
  function EnqueueType<O(==), M>(r: Registry<O, M>, t: O, m: M): (res: Outcome<Registry<O, M>>)
    ensures res.Threw? <==> !Registered(r, t)
    ensures res.Threw? ==> res.error == IndexOutOfRange
    ensures res.Returned? ==>
              var i := IndexOfValue(r, t);
              && SameOwners(r, res.value) && OthersUnchanged(r, res.value, i)
              && res.value[i].queue == r[i].queue + [m]
  {
    var i := IndexOfValue(r, t);
    if i < 0 then Threw(IndexOutOfRange) else Returned(Push(r, i, m))
  }

  /** Both overloads select the same queue and leave the same fabric. */
  lemma EnqueueOverloadsAgree<O, M>(r: Registry<O, M>, o: O, m: M)
    ensures Enqueue(r, o, m).Threw? <==> EnqueueType(r, o, m).Threw?
    ensures Enqueue(r, o, m).Returned? ==>
              Enqueue(r, o, m).value.registry == EnqueueType(r, o, m).value
  {
  }

  /** The message taken and the fabric left behind. */
  datatype Taken<O, M> = Taken(message: M, registry: Registry<O, M>)

  /**
    `Dequeue` (and its generic twin, whose type argument is unused): `Take` from
    the first queue registered under `o`.
   */
  function Dequeue<O(==), M>(r: Registry<O, M>, o: O): (res: Outcome<Taken<O, M>>)
    requires !Blocks(r, o)
    ensures res.Threw? <==> !Registered(r, o)
    ensures res.Threw? ==> res.error == IndexOutOfRange
    ensures res.Returned? ==>
              var i, r' := IndexOfValue(r, o), res.value.registry;
              && SameOwners(r, r') && OthersUnchanged(r, r', i)
              && r[i].queue == [res.value.message] + r'[i].queue
              && AllMessages(r) == AllMessages(r') + multiset{res.value.message}
  {
    var i := IndexOfValue(r, o);
    if i < 0 then Threw(IndexOutOfRange)
    else
      var e := Entry(r[i].owner, r[i].queue[1..]);
      assert r[i].queue == [r[i].queue[0]] + e.queue;
      assert multiset(r[i].queue) == multiset(e.queue) + multiset{r[i].queue[0]};
      assert r[i := e][i := r[i]] == r;
      AllMessagesGrow(r[i := e], i, r[i], multiset{r[i].queue[0]});
      Returned(Taken(r[i].queue[0], r[i := e]))
  }

  /** Enqueuing onto an empty queue and taking from it again restores the fabric. */
  lemma EnqueueDequeueRoundTrip<O, M>(r: Registry<O, M>, o: O, m: M)
    requires Registered(r, o) && r[IndexOfValue(r, o)].queue == []
    ensures Enqueue(r, o, m).Returned?
    ensures !Blocks(Enqueue(r, o, m).value.registry, o)
    ensures Dequeue(Enqueue(r, o, m).value.registry, o) == Returned(Taken(m, r))
  {
    var p := Enqueue(r, o, m).value.registry;
    SameOwnersSameIndex(r, p, o);
    var i := IndexOfValue(r, o);
    var t := Dequeue(p, o).value;
    assert t.registry[i] == r[i];
    assert t.registry == r;
  }

  /** A producer publishing `ms` one after another onto `o`'s queue. */
  function EnqueueAll<O(==), M>(r: Registry<O, M>, o: O, ms: seq<M>): (r': Registry<O, M>)
    requires Registered(r, o)
    ensures SameOwners(r, r') && OthersUnchanged(r, r', IndexOfValue(r, o))
    ensures r'[IndexOfValue(r, o)].queue == r[IndexOfValue(r, o)].queue + ms
    decreases |ms|
  {
    if |ms| == 0 then r
    else
      var p := Enqueue(r, o, ms[0]).value.registry;
      SameOwnersSameIndex(r, p, o);
      assert ms == [ms[0]] + ms[1..];
      EnqueueAll(p, o, ms[1..])
  }

  /** The messages a consumer took, in order, and the fabric it left. */
  datatype Drained<O, M> = Drained(messages: seq<M>, registry: Registry<O, M>)

  /** A consumer taking `n` messages one after another from `o`'s queue. */
  function Drain<O(==), M>(r: Registry<O, M>, o: O, n: nat): (d: Drained<O, M>)
    requires Registered(r, o) && n <= |r[IndexOfValue(r, o)].queue|
    ensures SameOwners(r, d.registry) && OthersUnchanged(r, d.registry, IndexOfValue(r, o))
    ensures d.messages == r[IndexOfValue(r, o)].queue[..n]
    ensures d.registry[IndexOfValue(r, o)].queue == r[IndexOfValue(r, o)].queue[n..]
    decreases n
  {
    if n == 0 then Drained([], r)
    else
      var t := Dequeue(r, o).value;
      SameOwnersSameIndex(r, t.registry, o);
      var rest := Drain(t.registry, o, n - 1);
      Drained([t.message] + rest.messages, rest.registry)
  }

  /**
    FIFO per owner, with neither loss nor duplication: whatever is published
    onto an empty queue is taken back in publication order, and the fabric
    ends as it began.
   */
  lemma {:induction false} FifoRoundTrip<O, M>(r: Registry<O, M>, o: O, ms: seq<M>)
    requires Registered(r, o) && r[IndexOfValue(r, o)].queue == []
    ensures Drain(EnqueueAll(r, o, ms), o, |ms|) == Drained(ms, r)
  {
    var i := IndexOfValue(r, o);
    var p := EnqueueAll(r, o, ms);
    SameOwnersSameIndex(r, p, o);
    assert p[i].queue == ms;
    var d := Drain(p, o, |ms|);
    assert d.messages == ms;
    assert d.registry[i].queue == [];
    assert d.registry[i] == r[i];
    assert forall j :: 0 <= j < |r| ==> d.registry[j] == r[j];
    assert d.registry == r;
  }

  /**
    A second queue registered under an owner that already has one is never
    reached: no lookup, for any identity, ever selects it.
   */
  lemma ShadowedQueueUnreachable<O, M>(r: Registry<O, M>, i: int, j: int, o: O, m: M)
    requires 0 <= i < j < |r| && r[i].owner == r[j].owner
    ensures IndexOfValue(r, o) != j
    ensures Enqueue(r, o, m).Returned? ==> Enqueue(r, o, m).value.registry[j] == r[j]
    ensures !Blocks(r, o) && Dequeue(r, o).Returned? ==> Dequeue(r, o).value.registry[j] == r[j]
  {
  }

  /** On a freshly built fabric with distinct owners, `objs[i]` finds position `i`. */
  lemma NewIndexesByPosition<O, M>(objs: seq<O>, i: int)
    requires 0 <= i < |objs|
    requires forall a, b :: 0 <= a < b < |objs| ==> objs[a] != objs[b]
    ensures IndexOfValue(New<O, M>(objs), objs[i]) == i
    ensures Blocks(New<O, M>(objs), objs[i])
  {
  }
}

=== FILE: monitor.dfy ===
/**
  A Monitor owns a set of detectors. `Start` records one queue observer per
  detector, asks every detector to enable itself, and is `Ok` exactly when at
  least one of them did. `Shutdown` runs the protocol shared with Service.

  Detector `Enable` calls and thread liveness are inputs; one iteration of an
  observer's loop is the pure function `ObserveDetectorQueueStep`.
 */
module Monitors {
  import opened Api
  import opened MessageQueues
  import RaspApi
  import ShutdownProtocol

  /** The state of a Monitor with detector identities of type `D`. */
  datatype Monitor<D> = Monitor(
    status: ApiStatus,
    detectors: seq<D>,
    observers: seq<D>,           // the detector each queue observer thread watches
    flags: ShutdownProtocol.Flags)

  /**
    The constructor: it sets no status of its own, so the status is the
    default `Unknown`; there are no detectors and no observer threads yet.
   */
  function New<D>(): (m: Monitor<D>)
    ensures m.status == RaspApi.InitialStatus == ApiStatus.Unknown
    ensures RaspApi.ThrowIfNotOk(m.status).Threw?
    ensures m.detectors == [] && m.observers == []
    ensures m.flags == ShutdownProtocol.Fresh
  {
    Monitor(RaspApi.InitialStatus, [], [], ShutdownProtocol.Fresh)
  }

  /** How many `Enable` calls succeeded, counted in detector order. */
  function CountEnabled(enable: seq<ApiResult>): (n: nat)
    ensures n == multiset(enable)[Success]
    ensures n <= |enable|
    ensures n == 0 <==> forall i :: 0 <= i < |enable| ==> enable[i] != Success
    decreases |enable|
  {
    if |enable| == 0 then 0
    else
      assert enable == [enable[0]] + enable[1..];
      (if enable[0] == Success then 1 else 0) + CountEnabled(enable[1..])
  }

  /**
    `Start`: an observer per detector is appended to the observer list and
    every observer in the list is started; then `enable[i]` is what the `i`-th
    detector's `Enable` returned. An observer left from an earlier `Start` was
    started already, so starting it again throws before any detector is
    enabled. Otherwise the monitor is `Ok` and reports `Success` iff some
    detector enabled; else, including when it has no detectors, it is `Error`
    and reports `Failure`. The caller must have brought the monitor to
    `Initialized` (the guard for that lives in a base class outside this model).
   */
  function Start<D>(m: Monitor<D>, enable: seq<ApiResult>): (r: Outcome<Started<Monitor<D>>>)
    requires m.status == Initialized
    requires |enable| == |m.detectors|
    ensures r.Threw? <==> m.observers != []
    ensures r.Threw? ==> r.error == ThreadState
    ensures r.Returned? ==>
              && r.value.component.observers == m.detectors
              && r.value.component.detectors == m.detectors
              && r.value.component.flags == m.flags
              && (r.value.result == Success <==> exists i :: 0 <= i < |enable| && enable[i] == Success)
              && (r.value.result == Success ==> r.value.component.status == Ok)
              && (r.value.result != Success ==> r.value.result == Failure && r.value.component.status == Error)
  {
    var started := m.(observers := m.observers + m.detectors);
    if m.observers != [] then Threw(ThreadState)
    else if CountEnabled(enable) > 0 then Returned(Started(started.(status := Ok), Success))
    else Returned(Started(started.(status := Error), Failure))
  }

  /**
    A monitor with detectors that started once cannot start again, even after
    being brought back to `Initialized`: its observers are already running.
   */
  lemma RestartThrows<D>(m: Monitor<D>, enable: seq<ApiResult>)
    requires m.status == Initialized && m.observers == [] && m.detectors != []
    requires |enable| == |m.detectors|
    ensures Start(m, enable).Returned?
    ensures Start(Start(m, enable).value.component.(status := Initialized), enable) == Threw(ThreadState)
  {
  }

  /** The monitor after `Shutdown`, and the protocol's report. */
  datatype ShutDown<D> = ShutDown(monitor: Monitor<D>, cancelled: bool, report: ShutdownProtocol.Report)

  /**
    `Shutdown`: the shared protocol over the observer threads; `alive(k)[i]`
    is what the k-th liveness observation sees of observer `i`. Only the
    shutdown flags and the process-wide cancellation change; the status
    stays `Ok`.
   */
  function Shutdown<D>(m: Monitor<D>, cancelled: bool, alive: nat -> seq<bool>): (o: Outcome<ShutDown<D>>)
    requires forall k: nat :: |alive(k)| == |m.observers|
    ensures o.Threw? <==> m.status != Ok
    ensures o.Returned? ==>
              && o.value.monitor == m.(flags := o.value.monitor.flags)
              && o.value.monitor.flags.requested
              && o.value.cancelled
              && (o.value.monitor.flags.completed <==> m.flags.completed || o.value.report.result == Success)
              && o.value.report.sleeps == ShutdownProtocol.WaitPolls(alive, 0)
              && o.value.report.sleeps <= ShutdownProtocol.MaxPolls
              && (o.value.report.cancelFired <==> !cancelled)
              && (o.value.report.aborted <==> ShutdownProtocol.AnyAlive(alive(o.value.report.sleeps + 1)))
              && (o.value.report.result == Success <==>
                    !ShutdownProtocol.AnyAlive(alive(o.value.report.sleeps + 1))
                    || !ShutdownProtocol.AnyAlive(alive(o.value.report.sleeps + 4)))
              && (o.value.report.result == Success || o.value.report.result == Failure)
  {
    match ShutdownProtocol.Run(m.status, m.flags, cancelled, alive)
    case Threw(e) => Threw(e)
    case Returned(st) => Returned(ShutDown(m.(flags := st.flags), st.cancelled, st.report))
  }

  /** A monitor without observer threads shuts down at once, successfully and completely. */
  lemma ShutdownWithoutObservers<D>(m: Monitor<D>, cancelled: bool, alive: nat -> seq<bool>)
    requires m.status == Ok && m.observers == []
    requires forall k: nat :: |alive(k)| == |m.observers|
    ensures Shutdown(m, cancelled, alive)
            == Returned(ShutDown(m.(flags := ShutdownProtocol.Flags(true, true)), true,
                                 ShutdownProtocol.Report(0, false, !cancelled, Success)))
  {
    assert !ShutdownProtocol.AnyAlive(alive(0)) && !ShutdownProtocol.AnyAlive(alive(1));
  }

  /** What one iteration of a detector queue observer did. */
  datatype ObserverStep<D, M> =
    | Consumed(message: M, registry: Registry<D, M>)   // taken and discarded; the loop goes on
    | Stopped                                          // shutdown or cancellation: the loop ends cleanly
      // logged; the observer returns for good, leaving the fabric as `registry`
    | Crashed(error: Exception, registry: Registry<D, M>)

  /** The monitor and the observer's step after one iteration. */
  datatype Observed<D, M> = Observed(monitor: Monitor<D>, step: ObserverStep<D, M>)

  /**
    One iteration of `ObserveDetectorQueue` for `detector`, while the
    process-wide cancellation flag is `cancelled`. The message taken is cast to
    the detector message type (`isDetectorMessage` says whether that succeeds),
    and is then never handed to `ProcessDetectorQueueMessage` nor published
    anywhere. A clean stop sets the monitor's status to `Ok`; any other
    exception ends the observer without touching the status.
   */
  function ObserveDetectorQueueStep<D(==), M>(
    m: Monitor<D>, r: Registry<D, M>, detector: D, cancelled: bool, isDetectorMessage: M -> bool)
    : (o: Observed<D, M>)
    requires m.flags.requested || cancelled || !Blocks(r, detector)
    ensures o.step.Stopped? <==> m.flags.requested || cancelled
    ensures o.step.Stopped? ==> o.monitor == m.(status := Ok)
    ensures !o.step.Stopped? ==> o.monitor == m
    ensures o.step.Crashed? && o.step.error == IndexOutOfRange <==>
              !(m.flags.requested || cancelled) && !Registered(r, detector)
    ensures o.step.Crashed? && o.step.error == IndexOutOfRange ==> o.step.registry == r
    ensures o.step.Consumed? || o.step.Crashed? ==> SameOwners(r, o.step.registry)
    ensures o.step.Crashed? ==> o.step.error == IndexOutOfRange || o.step.error == InvalidCast
    ensures o.step.Consumed? ==> isDetectorMessage(o.step.message)
    ensures (o.step.Consumed? || (o.step.Crashed? && o.step.error == InvalidCast)) ==>
              var i, r' := IndexOfValue(r, detector), o.step.registry;
              && HeadRemoved(r, detector, r')
              && (o.step.Consumed? ==> r[i].queue[0] == o.step.message)
              && (o.step.Crashed? ==> !isDetectorMessage(r[i].queue[0]))
              && AllMessages(r') + multiset{r[i].queue[0]} == AllMessages(r)
  {
    if m.flags.requested || cancelled then Observed(m.(status := Ok), Stopped)
    else
      match Dequeue(r, detector)
      case Threw(e) => Observed(m, Crashed(e, r))
      case Returned(t) =>
        if isDetectorMessage(t.message) then Observed(m, Consumed(t.message, t.registry))
        else Observed(m, Crashed(InvalidCast, t.registry))
  }
}

=== FILE: rasp_api.dfy ===
/**
  The status engine every component inherits: a `Status` that starts at
  `Unknown`, two guards that throw when the component is out of phase, the
  helpers that set a status and return a matching result in one step, and
  publication of a message into the queue registered under the component.
 */
module RaspApi {
  import opened Api
  import opened MessageQueues

  /** The status a component has before its own constructor sets one. */
  const InitialStatus: ApiStatus := ApiStatus.Unknown

  /** A status together with the result returned alongside it. */
  datatype Transition = Transition(status: ApiStatus, result: ApiResult)

  /** Throws unless the status is `Ok`; when it passes, the status is untouched. */
  function ThrowIfNotOk(status: ApiStatus): (o: Outcome<ApiStatus>)
    ensures o.Threw? <==> status != Ok
    ensures o.Threw? ==> o.error == NotOk
    ensures o.Returned? ==> o.value == status == Ok
  {
    if status != Ok then Threw(NotOk) else Returned(status)
  }

  /** Throws unless the status is `Initializing`; when it passes, the status is untouched. */
  function ThrowIfNotInitializing(status: ApiStatus): (o: Outcome<ApiStatus>)
    ensures o.Threw? <==> status != Initializing
    ensures o.Threw? ==> o.error == NotInitializing
    ensures o.Returned? ==> o.value == status == Initializing
  {
    if status != Initializing then Threw(NotInitializing) else Returned(status)
  }

  /** No status passes both guards. */
  lemma GuardsExclusive(status: ApiStatus)
    ensures ThrowIfNotOk(status).Threw? || ThrowIfNotInitializing(status).Threw?
  {
  }

  /** A component still at the default status passes neither guard. */
  lemma InitialStatusPassesNoGuard()
    ensures ThrowIfNotOk(InitialStatus) == Threw(NotOk)
    ensures ThrowIfNotInitializing(InitialStatus) == Threw(NotInitializing)
  {
  }

  /** Sets the given status and reports success. */
  function SetStatusAndReturnSuccess(status: ApiStatus): (t: Transition)
    ensures t.status == status && t.result == Success
  {
    Transition(status, Success)
  }

  /** Sets the given status and reports failure. */
  function SetStatusAndReturnFailure(status: ApiStatus): (t: Transition)
    ensures t.status == status && t.result == Failure
  {
    Transition(status, Failure)
  }

  /** Promotes to `Initialized` and reports success (the initialization log line is not modelled). */
  function SetInitializedStatusAndReturnSuccess(): (t: Transition)
    ensures t == SetStatusAndReturnSuccess(Initialized)
    ensures ThrowIfNotOk(t.status).Threw?
  {
    Transition(Initialized, Success)
  }

  /** Promotes to `Ok` and reports success: afterwards the `Ok` guard passes. */
  function SetOkStatusAndReturnSuccess(): (t: Transition)
    ensures t == SetStatusAndReturnSuccess(Ok)
    ensures ThrowIfNotOk(t.status).Returned?
  {
    Transition(Ok, Success)
  }

  /**
    Sets `Error` and reports failure, whatever the message; a non-empty message
    is only logged, so it has no effect on the transition.
   */
  function SetErrorStatusAndReturnFailure(errorMessage: string): (t: Transition)
    ensures t == SetStatusAndReturnFailure(Error)
    ensures ThrowIfNotOk(t.status).Threw?
  {
    Transition(Error, Failure)
  }

  /** The error helper's transition does not depend on whether a message was given. */
  lemma ErrorTransitionIgnoresMessage(a: string, b: string)
    ensures SetErrorStatusAndReturnFailure(a) == SetErrorStatusAndReturnFailure(b)
    ensures SetErrorStatusAndReturnFailure("") == SetStatusAndReturnFailure(Error)
  {
  }

  /**
    Publishes `m` into the queue registered under the component `self` itself,
    through the object overload of `Enqueue`.
   */
  function EnqueueMessage<O(==), M>(r: Registry<O, M>, self: O, m: M): (res: Outcome<Published<O, M>>)
    ensures res.Threw? <==> !Registered(r, self)
    ensures res.Returned? ==>
              var i := IndexOfValue(r, self);
              && SameOwners(r, res.value.registry) && OthersUnchanged(r, res.value.registry, i)
              && res.value.registry[i].owner == self
              && res.value.registry[i].queue == r[i].queue + [m]
              && AllMessages(res.value.registry) == AllMessages(r) + multiset{m}
  {
    Enqueue(r, self, m)
  }
}

=== FILE: scenarios.dfy ===
/**
  Properties that span components: a message travelling through a two-stage
  pipeline over the fabric, and the lifecycle rules that tie `Start` to the
  `Ok` guard of `Shutdown` for Service and Monitor.
 */
module Scenarios {
  import opened Api
  import opened MessageQueues
  import Services
  import Monitors

  /** A message held by a fabric that holds nothing else is every queue's head. */
  lemma OnlyMessageIsHead<O, M>(r: Registry<O, M>, i: int, m: M)
    requires 0 <= i < |r| && |r[i].queue| > 0
    requires AllMessages(r) == multiset{m}
    ensures r[i].queue[0] == m
  {
    QueueInAllMessages(r, i);
    assert r[i].queue[0] in multiset(r[i].queue);
  }

  /**
    Stage A (not last) observes the source's queue and stage B (last) observes
    A's queue. A message that is the fabric's only content and that both stages
    process successfully is forwarded by A onto its own queue and then ends its
    journey at B: afterwards no queue holds any message.
   */
  lemma TwoStagePipelineSuccess<O, M>(
    sa: Services.Service<O>, sb: Services.Service<O>,
    r: Registry<O, M>, src: O, a: O, b: O, m: M,
    isClientMessage: M -> bool, process: M -> ApiResult)
    requires !sa.flags.requested && !sb.flags.requested
    requires Registered(r, src) && Registered(r, a) && Registered(r, b)
    requires r[IndexOfValue(r, src)].queue == [m]
    requires AllMessages(r) == multiset{m}
    requires isClientMessage(m) && process(m) == Success
    ensures !Blocks(r, src)
    ensures var s1 := Services.ObserveClientQueueStep(sa, r, a, src, false, isClientMessage, process, false).step;
            && s1.Routed? && s1.message == m && s1.route == Services.Forward
            && !Blocks(s1.registry, a)
            && var s2 := Services.ObserveClientQueueStep(sb, s1.registry, b, a, false, isClientMessage, process, true).step;
               && s2.Routed? && s2.message == m && s2.route == Services.EndJourney
               && AllMessages(s2.registry) == multiset{}
  {
    var s1 := Services.ObserveClientQueueStep(sa, r, a, src, false, isClientMessage, process, false).step;
    SameOwnersSameIndex(r, s1.registry, a);
    SameOwnersSameIndex(r, s1.registry, b);
    var i := IndexOfValue(s1.registry, a);
    OnlyMessageIsHead(s1.registry, i, m);
    var s2 := Services.ObserveClientQueueStep(sb, s1.registry, b, a, false, isClientMessage, process, true).step;
    assert AllMessages(s2.registry) + multiset{m} == multiset{m};
  }

  /**
    The same pipeline when A's processing fails: A still forwards the message,
    so it reaches B's input, A's queue, at the tail.
   */
  lemma TwoStagePipelineFailureStillForwards<O, M>(
    sa: Services.Service<O>, r: Registry<O, M>, src: O, a: O, m: M,
    isClientMessage: M -> bool, process: M -> ApiResult)
    requires !sa.flags.requested
    requires Registered(r, src) && Registered(r, a)
    requires r[IndexOfValue(r, src)].queue == [m]
    requires isClientMessage(m) && process(m) == Failure
    ensures !Blocks(r, src)
    ensures var s1 := Services.ObserveClientQueueStep(sa, r, a, src, false, isClientMessage, process, false).step;
            && s1.Routed? && s1.message == m && s1.route == Services.Forward
            && AllMessages(s1.registry) == AllMessages(r)
            && var q := s1.registry[IndexOfValue(s1.registry, a)].queue;
               |q| > 0 && q[|q| - 1] == m
  {
    var o := Services.ObserveClientQueueStep(sa, r, a, src, false, isClientMessage, process, false);
    assert o.step.Routed?;
    SameOwnersSameIndex(r, o.step.registry, a);
  }

  /** A service brought to `Initialized` and started passes the `Ok` guard that `Shutdown` applies. */
  lemma ServiceStartEnablesShutdown<C>(s: Services.Service<C>, cancelled: bool, alive: nat -> seq<bool>)
    requires s.status == Initialized
    requires forall k: nat :: |alive(k)| == |s.clients|
    ensures Services.Shutdown(Services.Start(s).component, cancelled, alive).Returned?
  {
  }

  /** A monitor none of whose detectors enabled is in `Error`, so its `Shutdown` throws. */
  lemma FailedMonitorCannotShutDown<D>(m: Monitors.Monitor<D>, enable: seq<ApiResult>, cancelled: bool,
                                       alive: nat -> seq<bool>)
    requires m.status == Initialized && m.observers == [] && |enable| == |m.detectors|
    requires forall i :: 0 <= i < |enable| ==> enable[i] != Success
    requires forall k: nat :: |alive(k)| == |m.detectors|
    ensures Monitors.Start(m, enable).Returned?
    ensures Monitors.Start(m, enable).value.component.status == Error
    ensures Monitors.Shutdown(Monitors.Start(m, enable).value.component, cancelled, alive) == Threw(NotOk)
  {
  }

  /** Two detectors of which only the second enables: the monitor starts `Ok` with `Success`. */
  lemma OneOfTwoDetectorsSuffices<D>(m: Monitors.Monitor<D>)
    requires m.status == Initialized && m.observers == [] && |m.detectors| == 2
    ensures Monitors.Start(m, [Failure, Success]) == Returned(Started(m.(status := Ok, observers := m.detectors), Success))
  {
    assert [Failure, Success][1] == Success;
  }

  /**
    With nothing to watch, a service still starts successfully while a monitor
    fails: the one difference in how the two report `Start`.
   */
  lemma StartAsymmetry<C, D>(s: Services.Service<C>, m: Monitors.Monitor<D>)
    requires s.status == Initialized && s.clients == []
    requires m.status == Initialized && m.observers == [] && m.detectors == []
    ensures Services.Start(s).result == Success
    ensures Monitors.Start(m, []) == Returned(Started(m.(status := Error), Failure))
  {
  }
}

=== FILE: service.dfy ===
/**
  A Service is one pipeline stage. It watches the queues of its clients (the
  detectors or the previous stage), hands each message of its own input kind
  to the stage's processing, and publishes the message again under its own
  identity unless the message's journey ends here.

  Threads are not modelled: `Start` records one worker per client, `Shutdown`
  runs the shared protocol over a liveness oracle, and one iteration of a
  worker's loop is the pure function `ObserveClientQueueStep`.
 */
module Services {
  import opened Api
  import opened MessageQueues
  import RaspApi
  import ShutdownProtocol

  /** The state of a Service with client identities of type `C`. */
  datatype Service<C> = Service(
    status: ApiStatus,
    clients: seq<C>,
    workers: seq<C>,             // the client each worker thread observes, in start order
    flags: ShutdownProtocol.Flags)

  /**
    The constructor: throws when the profile is null; otherwise the clients are
    the given objects in order and the status is `Initializing`.
   */
  function New<P, C>(profile: Option<P>, objects: seq<C>): (r: Outcome<Service<C>>)
    ensures r.Threw? <==> profile.None?
    ensures r.Threw? ==> r.error == ArgumentNull
    ensures r.Returned? ==>
              && r.value.status == Initializing
              && RaspApi.ThrowIfNotInitializing(r.value.status).Returned?
              && r.value.clients == objects
              && r.value.workers == []
              && r.value.flags == ShutdownProtocol.Fresh
  {
    if profile.None? then Threw(ArgumentNull)
    else Returned(Service(Initializing, objects, [], ShutdownProtocol.Fresh))
  }

  /**
    `Start`: one worker per client, in client order, then `Ok` and `Success`
    whatever the clients are. The caller must have brought the service to
    `Initialized` (the guard for that lives in a base class outside this model).
   */
  function Start<C>(s: Service<C>): (r: Started<Service<C>>)
    requires s.status == Initialized
    ensures r.result == Success
    ensures r.component.status == Ok
    ensures |r.component.workers| == |s.clients|
    ensures forall i :: 0 <= i < |s.clients| ==> r.component.workers[i] == s.clients[i]
    ensures r.component.clients == s.clients && r.component.flags == s.flags
  {
    Started(s.(status := Ok, workers := s.clients), Success)
  }

  /** The service after `Shutdown`, and the protocol's report. */
  datatype ShutDown<C> = ShutDown(service: Service<C>, cancelled: bool, report: ShutdownProtocol.Report)

  /**
    `Shutdown`: the shared protocol over the service's workers; `alive(k)[i]`
    is what the k-th liveness observation sees of worker `i`. Only the
    shutdown flags and the process-wide cancellation change; the status
    stays `Ok`.
   */
  function Shutdown<C>(s: Service<C>, cancelled: bool, alive: nat -> seq<bool>): (o: Outcome<ShutDown<C>>)
    requires forall k: nat :: |alive(k)| == |s.workers|
    ensures o.Threw? <==> s.status != Ok
    ensures o.Returned? ==>
              && o.value.service == s.(flags := o.value.service.flags)
              && o.value.service.flags.requested
              && o.value.cancelled
              && (o.value.service.flags.completed <==> s.flags.completed || o.value.report.result == Success)
              && o.value.report.sleeps == ShutdownProtocol.WaitPolls(alive, 0)
              && o.value.report.sleeps <= ShutdownProtocol.MaxPolls
              && (o.value.report.cancelFired <==> !cancelled)
              && (o.value.report.aborted <==> ShutdownProtocol.AnyAlive(alive(o.value.report.sleeps + 1)))
              && (o.value.report.result == Success <==>
                    !ShutdownProtocol.AnyAlive(alive(o.value.report.sleeps + 1))
                    || !ShutdownProtocol.AnyAlive(alive(o.value.report.sleeps + 4)))
              && (o.value.report.result == Success || o.value.report.result == Failure)
  {
    match ShutdownProtocol.Run(s.status, s.flags, cancelled, alive)
    case Threw(e) => Threw(e)
    case Returned(st) => Returned(ShutDown(s.(flags := st.flags), st.cancelled, st.report))
  }

  /**
    A started service with no client has no worker to wait for: shutdown
    succeeds at once, without sleeping or aborting, and is marked completed.
   */
  lemma ShutdownWithoutWorkers<C>(s: Service<C>, cancelled: bool, alive: nat -> seq<bool>)
    requires s.status == Ok && s.workers == []
    requires forall k: nat :: |alive(k)| == |s.workers|
    ensures Shutdown(s, cancelled, alive)
            == Returned(ShutDown(s.(flags := ShutdownProtocol.Flags(true, true)), true,
                                 ShutdownProtocol.Report(0, false, !cancelled, Success)))
  {
    assert !ShutdownProtocol.AnyAlive(alive(0)) && !ShutdownProtocol.AnyAlive(alive(1));
  }

  /**
    `AddClient`: rejects a type that is neither a service nor a monitor before
    looking for duplicates; a client already present is left alone; a new one
    goes at the end.
   */
  function AddClient<C(==)>(clients: seq<C>, c: C, isServiceOrMonitor: C -> bool): (r: Outcome<seq<C>>)
    ensures r.Threw? <==> !isServiceOrMonitor(c)
    ensures r.Threw? ==> r.error == NotServiceOrMonitor
    ensures r.Returned? ==> c in r.value && clients <= r.value && |r.value| <= |clients| + 1
    ensures r.Returned? ==> forall i :: 0 <= i < |r.value| ==> r.value[i] in clients || r.value[i] == c
    ensures r.Returned? && c in clients ==> r.value == clients
    ensures r.Returned? && c !in clients ==> r.value == clients + [c]
  {
    if !isServiceOrMonitor(c) then Threw(NotServiceOrMonitor)
    else if c in clients then Returned(clients)
    else Returned(clients + [c])
  }

  /** Adding a client that is already present changes nothing. */
  lemma AddClientIdempotent<C>(clients: seq<C>, c: C, isServiceOrMonitor: C -> bool)
    requires AddClient(clients, c, isServiceOrMonitor).Returned?
    ensures var once := AddClient(clients, c, isServiceOrMonitor).value;
            AddClient(once, c, isServiceOrMonitor) == Returned(once)
  {
  }

  /** No client is listed twice. */
  ghost predicate Distinct<C>(s: seq<C>)
  {
    forall i, j :: 0 <= i < j < |s| ==> s[i] != s[j]
  }

  /** `AddClient` never introduces a duplicate. */
  lemma AddClientKeepsDistinct<C>(clients: seq<C>, c: C, isServiceOrMonitor: C -> bool)
    requires AddClient(clients, c, isServiceOrMonitor).Returned?
    ensures Distinct(clients) ==> Distinct(AddClient(clients, c, isServiceOrMonitor).value)
  {
  }

  /** Position of the first type in `ts` that is rejected, or `|ts|` when none is. */
  function FirstRejected<C>(ts: seq<C>, isServiceOrMonitor: C -> bool): (k: nat)
    ensures k <= |ts|
    ensures forall j :: 0 <= j < k ==> isServiceOrMonitor(ts[j])
    ensures k < |ts| ==> !isServiceOrMonitor(ts[k])
    decreases |ts|
  {
    if |ts| == 0 then 0
    else if !isServiceOrMonitor(ts[0]) then 0
    else 1 + FirstRejected(ts[1..], isServiceOrMonitor)
  }

  /**
    The types of `xs` that are not in `seen`, each at its first occurrence, in
    the order of `xs`: what a left-to-right scan adding unseen types appends.
   */
  function NewClients<C(==)>(xs: seq<C>, seen: seq<C>): (r: seq<C>)
    ensures forall i :: 0 <= i < |r| ==> r[i] in xs && r[i] !in seen
    ensures forall x :: x in xs && x !in seen ==> x in r
    ensures Distinct(r)
    decreases |xs|
  {
    if |xs| == 0 then []
    else if xs[0] in seen then NewClients(xs[1..], seen)
    else [xs[0]] + NewClients(xs[1..], seen + [xs[0]])
  }

  /** The client list after `AddClients`, and the exception it threw, if any. */
  datatype ClientsUpdate<C> = ClientsUpdate(clients: seq<C>, thrown: Option<Exception>)

  /**
    `AddClients`: `AddClient` on each type from left to right. The list is
    updated in place, so a throw keeps every client added before it.
   */
  function AddClients<C(==)>(clients: seq<C>, ts: seq<C>, isServiceOrMonitor: C -> bool): (u: ClientsUpdate<C>)
    ensures u.thrown.None? <==> FirstRejected(ts, isServiceOrMonitor) == |ts|
    ensures u.thrown.Some? ==> u.thrown.value == NotServiceOrMonitor
    ensures clients <= u.clients
    ensures forall j :: 0 <= j < FirstRejected(ts, isServiceOrMonitor) ==> ts[j] in u.clients
    ensures forall i :: 0 <= i < |u.clients| ==>
              u.clients[i] in clients || u.clients[i] in ts[..FirstRejected(ts, isServiceOrMonitor)]
    ensures Distinct(clients) ==> Distinct(u.clients)
    decreases |ts|
  {
    if |ts| == 0 then ClientsUpdate(clients, None)
    else
      match AddClient(clients, ts[0], isServiceOrMonitor)
      case Threw(e) => ClientsUpdate(clients, Some(e))
      case Returned(cs) =>
        AddClientKeepsDistinct(clients, ts[0], isServiceOrMonitor);
        var u := AddClients(cs, ts[1..], isServiceOrMonitor);
        assert ts[..FirstRejected(ts, isServiceOrMonitor)]
               == [ts[0]] + ts[1..][..FirstRejected(ts[1..], isServiceOrMonitor)];
        u
  }

  /** One step of `NewClients`: the head is kept exactly when it is not seen yet. */
  lemma NewClientsStep<C>(xs: seq<C>, seen: seq<C>)
    requires |xs| > 0
    ensures NewClients(xs, seen)
            == if xs[0] in seen then NewClients(xs[1..], seen) else [xs[0]] + NewClients(xs[1..], seen + [xs[0]])
  {
  }

  /**
    `AddClients` appends, in order, exactly the types before the first rejected
    one that are not yet clients, each once: the list grows as left-to-right
    `AddClient` calls would grow it.
   */
  lemma {:induction false} AddClientsAppendsNewClients<C>(clients: seq<C>, ts: seq<C>, isServiceOrMonitor: C -> bool)
    ensures AddClients(clients, ts, isServiceOrMonitor).clients
            == clients + NewClients(ts[..FirstRejected(ts, isServiceOrMonitor)], clients)
    decreases |ts|
  {
    var k := FirstRejected(ts, isServiceOrMonitor);
    if |ts| == 0 || !isServiceOrMonitor(ts[0]) {
      assert k == 0 && ts[..k] == [];
    } else {
      var cs := AddClient(clients, ts[0], isServiceOrMonitor).value;
      var rest := ts[1..][..k - 1];
      assert AddClients(clients, ts, isServiceOrMonitor).clients
                   == AddClients(cs, ts[1..], isServiceOrMonitor).clients;
      assert AddClients(cs, ts[1..], isServiceOrMonitor).clients == cs + NewClients(rest, cs) by {
        AddClientsAppendsNewClients(cs, ts[1..], isServiceOrMonitor);
      }
      assert NewClients(ts[..k], clients)
                   == if ts[0] in clients then NewClients(rest, clients) else [ts[0]] + NewClients(rest, cs) by {
        assert ts[..k][0] == ts[0] && ts[..k][1..] == rest;
        NewClientsStep(ts[..k], clients);
      }
      assert cs == if ts[0] in clients then clients else clients + [ts[0]];
    }
  }

  /** `AddClients` of types that are all present already changes nothing. */
  lemma {:induction false} AddClientsOfPresent<C>(clients: seq<C>, ts: seq<C>, isServiceOrMonitor: C -> bool)
    requires forall t :: t in ts ==> t in clients
    ensures AddClients(clients, ts, isServiceOrMonitor).clients == clients
    decreases |ts|
  {
    if |ts| != 0 && isServiceOrMonitor(ts[0]) {
      AddClientsOfPresent(clients, ts[1..], isServiceOrMonitor);
    }
  }

  /** Repeating `AddClients` with the same types adds nothing more and throws the same way. */
  lemma AddClientsIdempotent<C>(clients: seq<C>, ts: seq<C>, isServiceOrMonitor: C -> bool)
    ensures var once := AddClients(clients, ts, isServiceOrMonitor);
            AddClients(once.clients, ts, isServiceOrMonitor) == once
  {
    var once := AddClients(clients, ts, isServiceOrMonitor);
    var k := FirstRejected(ts, isServiceOrMonitor);
    AddClientsPrefixPresent(once.clients, ts, k, isServiceOrMonitor);
  }

  /**
    When every type before position `k` is present and all are accepted, and
    `k` is where the first rejected type sits, `AddClients` leaves the list
    alone and reports the same throw.
   */
  lemma {:induction false} AddClientsPrefixPresent<C>(clients: seq<C>, ts: seq<C>, k: nat, isServiceOrMonitor: C -> bool)
    requires k == FirstRejected(ts, isServiceOrMonitor)
    requires forall j :: 0 <= j < k ==> ts[j] in clients
    ensures AddClients(clients, ts, isServiceOrMonitor).clients == clients
    decreases |ts|
  {
    if |ts| != 0 && isServiceOrMonitor(ts[0]) {
      AddClientsPrefixPresent(clients, ts[1..], k - 1, isServiceOrMonitor);
    }
  }

  /**
    `IsLastInPipeline`: this stage is the last of the pipeline's stages, in
    insertion order.
   */
  function IsLastInPipeline<S(==)>(stages: seq<S>, self: S): (b: bool)
    requires |stages| > 0
    ensures b ==> self in stages
    ensures b <==> stages == stages[..|stages| - 1] + [self]
  {
    stages[|stages| - 1] == self
  }

  /** In a pipeline of distinct stages exactly one stage, the final one, is last. */
  lemma ExactlyOneLastStage<S>(stages: seq<S>, i: int)
    requires |stages| > 0 && Distinct(stages)
    requires 0 <= i < |stages|
    ensures IsLastInPipeline(stages, stages[i]) <==> i == |stages| - 1
  {
  }

  /** How a dequeued message was handled: not of the stage's input kind, or processed with a result. */
  datatype Handling = Foreign | Processed(result: ApiResult)

  /** Where a message goes after one iteration: onto the stage's own queue, or nowhere. */
  datatype Route = Forward | EndJourney

  /**
    The routing decision of one loop iteration. A message's journey ends exactly
    when the stage is last and the message either succeeded or was foreign;
    `NoOp`, `Failure` and `Unknown` always forward.
   */
  function RouteMessage(h: Handling, isLast: bool): (rt: Route)
    ensures rt == EndJourney <==> isLast && (h == Foreign || h == Processed(Success))
  {
    match h
    case Processed(r) =>
      if r == NoOp then Forward
      else if r != Success then Forward
      else if isLast then EndJourney
      else Forward
    case Foreign =>
      if isLast then EndJourney else Forward
  }

  /** A processed message is dropped only on success, so failure never loses it. */
  lemma NeverDroppedUnlessSuccess(r: ApiResult, isLast: bool)
    requires r != Success
    ensures RouteMessage(Processed(r), isLast) == Forward
  {
  }

  /** What one iteration of a client queue observer did. */
  datatype Step<O, M> =
    | Routed(message: M, route: Route, registry: Registry<O, M>)
      // the iteration threw; `inFlight` is the message taken before the throw, if any
    | Faulted(error: Exception, inFlight: Option<M>, registry: Registry<O, M>)
    | Stopped                    // shutdown or cancellation: the loop ends cleanly

  /** The service and the observer's step after one iteration. */
  datatype Observed<O, M> = Observed(service: Service<O>, step: Step<O, M>)

  /**
    One iteration of `ObserveClientQueue` in service `s`, registered in the
    fabric as `self`, observing `client`, while the process-wide cancellation
    flag is `cancelled`: take the head of the client's queue, process it if it
    is of the stage's input kind, and route it. A clean stop sets the status to
    `Ok`. Any other exception is caught by the observer, which then starts its
    loop again.
   */
  function ObserveClientQueueStep<O(==), M>(
    s: Service<O>, r: Registry<O, M>, self: O, client: O, cancelled: bool,
    isClientMessage: M -> bool, process: M -> ApiResult, isLast: bool): (o: Observed<O, M>)
    requires s.flags.requested || cancelled || !Blocks(r, client)
    ensures o.step.Stopped? <==> s.flags.requested || cancelled
    ensures o.step.Stopped? ==> o.service == s.(status := Ok)
    ensures !o.step.Stopped? ==> o.service == s
    ensures o.step.Faulted? ==> o.step.error == IndexOutOfRange
    ensures o.step.Faulted? && o.step.inFlight.None? <==>
              !(s.flags.requested || cancelled) && !Registered(r, client)
    ensures o.step.Faulted? && o.step.inFlight.None? ==> o.step.registry == r
    ensures !(s.flags.requested || cancelled) && Registered(r, client) && Registered(r, self) ==> o.step.Routed?
    ensures o.step.Faulted? && o.step.inFlight.Some? ==>
              && !Registered(r, self)
              && !(isLast && (!isClientMessage(o.step.inFlight.value) || process(o.step.inFlight.value) == Success))
              && HeadRemoved(r, client, o.step.registry)
              && o.step.inFlight.value == r[IndexOfValue(r, client)].queue[0]
              && AllMessages(o.step.registry) + multiset{o.step.inFlight.value} == AllMessages(r)
    ensures o.step.Routed? ==>
              && 0 <= IndexOfValue(r, client) && |r[IndexOfValue(r, client)].queue| > 0
              && o.step.message == r[IndexOfValue(r, client)].queue[0]
              && SameOwners(r, o.step.registry)
              && (o.step.route == EndJourney <==>
                    isLast && (!isClientMessage(o.step.message) || process(o.step.message) == Success))
    ensures o.step.Routed? && o.step.route == EndJourney ==>
              && HeadRemoved(r, client, o.step.registry)
              && AllMessages(o.step.registry) + multiset{o.step.message} == AllMessages(r)
    ensures o.step.Routed? && o.step.route == Forward ==>
              var ci, si, r', m := IndexOfValue(r, client), IndexOfValue(r, self), o.step.registry, o.step.message;
              && 0 <= si
              && (forall j :: 0 <= j < |r| && j != ci && j != si ==> r'[j] == r[j])
              && (ci != si ==> r'[ci].queue == r[ci].queue[1..] && r'[si].queue == r[si].queue + [m])
              && (ci == si ==> r'[ci].queue == r[ci].queue[1..] + [m])
              && AllMessages(r') == AllMessages(r)
  {
    if s.flags.requested || cancelled then Observed(s.(status := Ok), Stopped)
    else
      Observed(s,
        match Dequeue(r, client)
        case Threw(e) => Faulted(e, None, r)
        case Returned(t) =>
          var m := t.message;
          var h := if isClientMessage(m) then Processed(process(m)) else Foreign;
          var route := RouteMessage(h, isLast);
          if route == EndJourney then Routed(m, route, t.registry)
          else
            SameOwnersSameIndex(r, t.registry, self);
            match RaspApi.EnqueueMessage(t.registry, self, m)
            case Threw(e) => Faulted(e, Some(m), t.registry)
            case Returned(p) =>
              SameOwnersSameIndex(t.registry, p.registry, self);
              Routed(m, route, p.registry))
  }
}

=== FILE: shutdown.dfy ===
/**
  The shutdown protocol that Service and Monitor share: guard on `Ok`, mark
  shutdown as requested, fire the process-wide cancellation if nobody has yet,
  poll the worker threads every 100 ms for at most 30 polls, then abort the
  stragglers and look once more.

  Threads are not modelled. The oracle `alive` says what the k-th evaluation of
  `IsAlive` over the worker list observes, one flag per worker: the wait loop's
  checks are observations 0..n and the check after the loop is observation
  n + 1. When some worker survived, the live count in the log message is
  observation n + 2 and the filter choosing which threads to abort is
  observation n + 3; neither decides anything modelled here. The check after
  the abort pass is observation n + 4.
 */
module ShutdownProtocol {
  import opened Api
  import RaspApi

  /** The wait loop's bound on polls. */
  const MaxPolls: nat := 30

  /** The sleep between two polls, in milliseconds. */
  const PollIntervalMs: nat := 100

  /** The two shutdown flags a Service or Monitor keeps. */
  datatype Flags = Flags(requested: bool, completed: bool)

  /** Neither flag set: the state of a freshly constructed component. */
  const Fresh: Flags := Flags(false, false)

  /** Some worker in the observation is still alive. */
  predicate AnyAlive(threads: seq<bool>)
  {
    exists i :: 0 <= i < |threads| && threads[i]
  }

  /** A worker that has stopped never runs again, and the worker list does not change. */
  ghost predicate DeadStayDead(alive: nat -> seq<bool>)
  {
    forall j: nat, k: nat :: j <= k ==>
      |alive(k)| == |alive(j)| && forall i :: 0 <= i < |alive(j)| && !alive(j)[i] ==> !alive(k)[i]
  }

  /**
    The number of 100 ms sleeps the wait loop performs, starting at poll `k`:
    it keeps polling while some worker is alive and fewer than 30 polls were made.
   */
  function WaitPolls(alive: nat -> seq<bool>, k: nat): (n: nat)
    requires k <= MaxPolls
    ensures k <= n <= MaxPolls
    ensures forall j: nat :: k <= j < n ==> AnyAlive(alive(j))
    ensures n < MaxPolls ==> !AnyAlive(alive(n))
    decreases MaxPolls - k
  {
    if AnyAlive(alive(k)) && k < MaxPolls then WaitPolls(alive, k + 1) else k
  }

  /** What one shutdown did: sleeps taken, whether it aborted, whether it fired cancellation, its result. */
  datatype Report = Report(sleeps: nat, aborted: bool, cancelFired: bool, result: ApiResult)

  /** The component's flags and the process-wide cancellation flag after shutdown, and the report. */
  datatype Finished = Finished(flags: Flags, cancelled: bool, report: Report)

  /**
    One `Shutdown` call on a component with status `status`, flags `flags`,
    while the process-wide cancellation flag is `cancelled`. The status itself
    is left as it is.
   */
  function Run(status: ApiStatus, flags: Flags, cancelled: bool, alive: nat -> seq<bool>): (o: Outcome<Finished>)
    ensures o.Threw? <==> status != Ok
    ensures o.Threw? ==> o.error == NotOk
    ensures o.Returned? ==>
              var st := o.value;
              var n := st.report.sleeps;
              && st.flags.requested
              && st.cancelled
              && (st.report.cancelFired <==> !cancelled)
              && n * PollIntervalMs <= 3000
              && (forall j: nat :: j < n ==> AnyAlive(alive(j)))
              && (n < MaxPolls ==> !AnyAlive(alive(n)))
              && (st.report.aborted <==> AnyAlive(alive(n + 1)))
              && (st.report.result == Success <==> !AnyAlive(alive(n + 1)) || !AnyAlive(alive(n + 4)))
              && (st.report.result == Success || st.report.result == Failure)
              && (st.flags.completed <==> flags.completed || st.report.result == Success)
  {
    match RaspApi.ThrowIfNotOk(status)
    case Threw(e) => Threw(e)
    case Returned(_) =>
      var n := WaitPolls(alive, 0);
      var stragglers := AnyAlive(alive(n + 1));
      var result :=
        if !stragglers then Success
        else if !AnyAlive(alive(n + 4)) then Success
        else Failure;
      Returned(Finished(
        Flags(true, flags.completed || result == Success),
        true,
        Report(n, stragglers, !cancelled, result)))
  }

  /**
    With every worker already stopped when shutdown begins, shutdown succeeds
    at once: no sleep, no abort, and it is marked completed.
   */
  lemma {:induction false} IdleWorkersStopAtOnce(flags: Flags, cancelled: bool, alive: nat -> seq<bool>)
    requires DeadStayDead(alive)
    requires !AnyAlive(alive(0))
    ensures Run(Ok, flags, cancelled, alive).Returned?
    ensures var r := Run(Ok, flags, cancelled, alive).value;
            r.report == Report(0, false, !cancelled, Success) && r.flags == Flags(true, true)
  {
    assert !AnyAlive(alive(1)) by {
      assert 0 <= 1;
      forall i | 0 <= i < |alive(1)|
        ensures !alive(1)[i]
      {
        assert !alive(0)[i];
      }
    }
  }

  /**
    A worker that ignores cancellation throughout exhausts the 30 polls, is
    aborted without effect, and shutdown fails leaving `completed` as it was.
   */
  lemma StubbornWorkerFailsShutdown(flags: Flags, cancelled: bool, alive: nat -> seq<bool>, w: nat)
    requires forall k: nat :: w < |alive(k)| && alive(k)[w]
    ensures Run(Ok, flags, cancelled, alive).Returned?
    ensures var r := Run(Ok, flags, cancelled, alive).value;
            && r.report == Report(MaxPolls, true, !cancelled, Failure)
            && r.flags == Flags(true, flags.completed)
  {
    var n := WaitPolls(alive, 0);
    assert AnyAlive(alive(n));
    assert AnyAlive(alive(n + 1));
    assert AnyAlive(alive(n + 4));
  }
}
